=== FILE: README.md ===
# Kiosk voice assistant: servo queue, query routing, wake-word detector and main loop

This project is a Dafny model of the sequential logic of a kiosk voice assistant.
The assistant waits for the wake word "bumblebee", captures one spoken command, asks
a reply generator about it, speaks the reply, and can drive a servo head over a
serial link. The model covers four parts:

- `servo.dfy` (module `Servo`): the servo head controller.
  - `ServoInterface` is a class with a `connected` flag and a first-in first-out
    `queue` of text commands.
  - Each motion method validates its angle and appends an exact command string at
    the back of the queue, and only while connected.
  - Named patterns expand to fixed command sequences.
  - `EmotionPattern` chooses at most one pattern from text, by prioritised substring
    tests.
  - `SendNext` is one round of the background consumer that takes commands from the
    front of the queue.
- `rag.dfy` (module `Rag`): the prompt context builder.
  - The query is lower-cased and classified by prioritised keyword tests into one of
    six topics.
  - The result is the section of the institution record for that topic, as a JSON
    value rather than as rendered text.
  - The placeholder record used when the data file cannot be loaded is modelled too.
- `wake_word.dfy` (module `WakeWord`): the wake-word detector.
  - The native keyword-spotting engine and audio library are abstract values. A
    `Platform` says how each constructor responds, a device read is a `ReadOutcome`,
    and the engine's inference is a `ProcessOutcome`.
  - Construction, frame decoding (`struct.unpack_from("h" * n)`), the detection
    decision and teardown order are modelled.
  - Acquired and released native resources are recorded as an `events` trace.
- `app.dfy` (module `App`): `main`.
  - `FilterCommand` is the wake-word filter `command.lower().replace(WAKE_WORD, "").strip()`.
  - The polling loop runs over a finite sequence of polls. Running out of polls
    stands for the operator's Ctrl+C.
  - The loop produces the calls made to the collaborators: capture, ask, speak.
  - Cleanup runs however the loop ends.

`text.dfy` (module `Text`) holds the Python string operations these parts use, on
ASCII: `lower`, `strip` (the `isspace` characters), `pat in s`, `replace(pat, "")`
and `str(n)`. `wrappers.dfy` holds `Option` and `Result`.

The detector is modelled as the code has it. The code makes a single acquisition
attempt and has none of the following: an API-only mode, an architecture-dependent
path, a custom keyword model, a fallback keyword list, retries, a default-device
retry, or a trimmed-credential last resort. When opening the stream fails, the engine
already created is not released (`StreamFailureLeaksEngine`). `cleanup` is not
idempotent; it is only reached after a successful construction.

## Model

| member | source | states |
|---|---|---|
| Servo.ServoInterface.constructor | servo_interface.py:8-20 | a new interface keeps its port and baud rate (by default `/dev/ttyACM0` at 9600 baud), is disconnected and has an empty queue |
| Servo.ServoInterface.Connect | servo_interface.py:22-40 | the interface is connected exactly when the link came up, the result reports it, and the queue is untouched |
| Servo.ServoInterface.Disconnect | servo_interface.py:42-49 | afterwards the interface is disconnected and pending commands remain queued; when already disconnected nothing changes |
| Servo.ServoInterface.RotateHorizontal | servo_interface.py:51-64 | appends exactly `rotate:H,<angle>` iff connected and 0 ≤ angle ≤ 180; otherwise the queue is unchanged; the connection is unchanged |
| Servo.ServoInterface.RotateVertical | servo_interface.py:66-79 | appends exactly `rotate:V,<angle>` iff connected and 45 ≤ angle ≤ 135; otherwise the queue is unchanged |
| Servo.ServoInterface.Scan | servo_interface.py:81-84 | appends `scan` at the back iff connected, and nothing else changes |
| Servo.ServoInterface.Center | servo_interface.py:86-89 | appends `center` at the back iff connected, and nothing else changes |
| Servo.ServoInterface.Nod | servo_interface.py:91-94 | appends `nod` at the back iff connected, and nothing else changes |
| Servo.PatternNamed | servo_interface.py:15-20 | a name found in the pattern table is the name of the pattern returned; a name not found is the name of no pattern |
| Servo.PatternNameRoundTrip | servo_interface.py:15-20 | looking up a pattern's table name gives back that pattern |
| Servo.ServoInterface.MotionPattern | servo_interface.py:96-105 | when connected, a known name appends its pattern's commands; an unknown name, or a disconnected interface, leaves the queue unchanged |
| Servo.ServoInterface.PatternGreeting | servo_interface.py:107-111 | appends `center` then `nod`, connected or not |
| Servo.ServoInterface.PatternThinking | servo_interface.py:113-119 | appends the thinking commands iff connected |
| Servo.ServoInterface.PatternListening | servo_interface.py:121-127 | appends the listening commands iff connected |
| Servo.ServoInterface.PatternConfused | servo_interface.py:129-136 | appends the confused commands iff connected |
| Servo.PatternCommandsSpelled | servo_interface.py:107-136 | greeting is [center, nod], thinking [H60, H120, H90], listening [V80, V100, V90] and confused [H70, H110, H90, nod], as the literal strings sent |
| Servo.RotateCommandsDistinct | servo_interface.py:60-75 | a rotation command determines its axis and its angle: equal commands have equal angles, and no horizontal command equals a vertical one |
| Servo.EmotionPattern | servo_interface.py:138-147 | never chooses listening, and chooses nothing iff no greeting, thinking or confused cue occurs in the lower-cased text |
| Servo.EmotionPatternIsFirstMatch | servo_interface.py:140-147 | the priority greeting > thinking > confused, in both directions: greeting is chosen iff a greeting cue occurs in the lower-cased text, thinking iff no greeting cue but a thinking cue occurs, confused iff only a confused cue occurs |
| Servo.ThinkingOnlyThroughHmmOrConsider | servo_interface.py:142-145 | text containing "thinking" or "let me think" plays the greeting, because both contain "hi"; thinking is chosen only through "hmm" or "consider" |
| Servo.EmotionPatternIgnoresCase | servo_interface.py:140 | the chosen pattern is the same for the text and its lower-cased form |
| Servo.ServoInterface.ReactToEmotions | servo_interface.py:138-147 | when connected, appends the commands of the one pattern `EmotionPattern` chooses, or nothing when none is chosen; disconnected, nothing changes |
| Servo.ServoInterface.SendNext | servo_interface.py:149-173 | an empty queue sends nothing; otherwise the oldest command is sent and removed, and a failed write marks the interface disconnected |
| Rag.Section | rag_handler.py:41-62 | the section lookup raises TypeError when the institution value is not an object, and otherwise succeeds iff the record holds every key the chosen branch reads with `info[key]` (`location` is read with a default and never raises); the value found is stated by `Rag.SectionOfRecord` |
| Rag.Index | rag_handler.py:41-61 | `j[key]` succeeds iff `j` is an object holding `key`, with that value; a missing key is a KeyError; a non-object is a TypeError |
| Rag.ClassifyIsFirstMatch | rag_handler.py:40-58 | the contract of `Rag.Classify`: the topic chosen is the first, in priority order, one of whose keywords occurs in the lower-cased query, or the basics when none occurs (both directions) |
| Rag.ClassifyIgnoresCase | rag_handler.py:40 | a query and its lower-cased form are routed to the same topic |
| Rag.ClassifyMonotone | rag_handler.py:44-56 | adding text around a query never moves it to a topic of lower priority |
| Rag.PluralQueryMatches | rag_handler.py:41-44 | any query containing "programs" in any letter case is routed to departments, because keywords are substrings of the lower-cased query |
| Rag.GenerateRagPrompt | rag_handler.py:35-62 | data that is not truthy gives the fixed no-information answer; on truthy data the lookup raises iff the record has no `institution` object or the chosen branch's section lookup raises, and otherwise the answer is the topic `Classify` chooses with exactly that section |
| Rag.GenerateRagPromptIgnoresCase | rag_handler.py:40 | the prompt for a query equals the prompt for its lower-cased form |
| Rag.SectionOfRecord | rag_handler.py:44-62 | whenever the record holds the keys a topic's branch reads, whatever else is missing, that section is found with the value its branch builds: the list section itself, contact with `location` defaulting to an empty object, or exactly name and accreditation |
| Rag.WellFormedAnswers | rag_handler.py:44-64 | on a record holding every key the branches read, every query is answered by one branch with the value it promises: the list sections, contact with location defaulting to an empty object, or exactly name and accreditation; the trailing empty-string return is never reached |
| Rag.Placeholder | rag_handler.py:19-32 | the placeholder record is truthy, holds every key the branches read, has empty departments, facilities, student services and achievements lists, and has no location |
| Rag.LoadCollegeData | rag_handler.py:10-33 | a parsed file is used as loaded; when loading fails the record is the placeholder, which is truthy and holds every key the branches read |
| Rag.PlaceholderAnswers | rag_handler.py:19-32 | with the placeholder record, list queries find empty lists, contact queries find the placeholder contact and an empty location, and other queries find the placeholder name |
| WakeWord.Construct | wake_word_detector.py:20-39 | each outcome holds exactly when its step is the first to fail: `InvalidWakeWord` iff the wake word is not advertised, `EngineCreateFailed` iff it is but the engine cannot be created, `AudioInitFailed` iff the engine exists but the audio library does not start, and success iff every step succeeds; the first two acquire nothing, the audio failure only the engine; a built detector has the engine for exactly `[WAKE_WORD]` with the given access key and the platform's sample rate and frame length, and a mono 16-bit input stream at that rate with buffers of that frame length |
| WakeWord.FailedListingRejects | wake_word_detector.py:7-25 | the contract of `WakeWord.ListWakeWords` on its error path: when listing the keywords fails, the list is empty, so construction is always rejected and acquires nothing |
| WakeWord.StreamFailureLeaksEngine | wake_word_detector.py:28-39 | when the stream does not open, the engine created and the audio library started are never released |
| WakeWord.CleanupReversesConstruction | wake_word_detector.py:53-56 | after a successful construction, cleanup releases stream, audio library and engine, in the reverse of the order they were acquired |
| WakeWord.Int16 | wake_word_detector.py:44 | a sample decoded from two bytes is a signed 16-bit value |
| WakeWord.DecodeSamples | wake_word_detector.py:44 | decoding yields exactly `n` samples, sample `k` read from bytes `2k` and `2k + 1` |
| WakeWord.UnpackFrame | wake_word_detector.py:44 | unpacking succeeds iff the buffer holds at least `2n` bytes, and then yields `n` signed 16-bit samples, sample k being the int16 of bytes 2k and 2k+1 |
| WakeWord.SampleBytes | wake_word_detector.py:44 | the two little-endian bytes of a signed 16-bit sample read back, as `Int16` reads them, to that sample |
| WakeWord.DecodeEncode | wake_word_detector.py:44 | decoding the bytes of a frame recovers exactly its samples, whatever bytes follow them |
| WakeWord.DetectIffIndexZero | wake_word_detector.py:41-51 | the contract of `WakeWord.Detect`: a listen step detects iff the read returned a full frame and the engine reports index 0 for its decoded samples |
| WakeWord.DetectSeesCapturedSamples | wake_word_detector.py:43-48 | the engine is handed exactly the samples the device captured |
| WakeWord.FaultsAreNoDetection | wake_word_detector.py:49-51 | a read fault, a short buffer, or any engine answer other than index 0 is no detection |
| WakeWord.WakeWordDetector.Create | wake_word_detector.py:20-39 | step-by-step construction acquires exactly the resources `Construct` lists, fails with its error, or returns a new detector holding its engine and stream |
| WakeWord.WakeWordDetector.Listen | wake_word_detector.py:41-51 | the result is `Detect` on the engine's frame length; the method changes nothing |
| WakeWord.WakeWordDetector.Cleanup | wake_word_detector.py:53-56 | appends stream closed, audio terminated, engine deleted, in that order, to the detector's resource history |
| App.FilterCommandShape | main.py:34 | the contract of `App.FilterCommand`: the filtered command has no upper-case letter, neither starts nor ends with whitespace, and is no longer than the transcript |
| App.WakeWordAloneFiltersToEmpty | main.py:34-35 | a transcript that is only the wake word, in any case, between whitespace, filters to the empty command |
| App.RemovalCanFormNewOccurrence | main.py:34 | removal is one left-to-right pass: "bbumblebeeumblebee" filters to "bumblebee", an occurrence formed by the removal |
| App.PollEffects | main.py:22-46 | one pass makes calls only after a detection, and every detection whose capture does not fault starts with a capture; the calls are none, a capture alone, or a capture, a request for the filtered command and speaking the reply |
| App.FirstEscape | main.py:27-46 | the index of the first pass whose microphone fault escapes the loop, or the number of passes |
| App.AsksIffCommandRemains | main.py:22-40 | a pass asks for a reply iff it detected the wake word, heard a command and something remains after filtering |
| App.PollPrompt | main.py:34-38 | within one pass, a request is the non-empty filtered command, between the capture and speaking the reply |
| App.PromptBetweenCaptureAndSpeech | main.py:20-46 | a property of `App.Effects`, the calls of a whole run: over a whole run, every request for a reply comes right after a capture and right before speaking the reply |
| App.PromptIsFilteredCommand | main.py:20-46 | a property of `App.Effects`: every request for a reply is the non-empty filtered transcript of a command captured after a detection |
| App.PromptIsLowerCase | main.py:34-36 | every request for a reply is lower-case |
| App.NoDetectionNoEffects | main.py:20-46 | a property of `App.Effects`: without a detection, no command is captured and nothing is asked or spoken |
| App.Pass | main.py:22-46 | one pass reports an escaping microphone fault exactly when it occurs, and otherwise makes exactly the calls of `PollEffects` |
| App.Serve | main.py:20-51 | the loop makes the calls of the passes before the first escaping fault, and ends crashed iff such a fault occurs, interrupted otherwise |
| App.RunMain | main.py:8-53 | a failed construction raises before the loop with no calls and no cleanup; otherwise the loop runs as `Serve` says and cleanup follows, releasing everything acquired |
| Text.Lower | main.py:34 | same length, no upper-case letter, and each character is its own lower-case form |
| Text.StripLeft | main.py:34 | a suffix of the input, whose dropped prefix is all whitespace and whose first character is not whitespace |
| Text.StripRight | main.py:34 | a prefix of the input, whose dropped suffix is all whitespace and whose last character is not whitespace |
| Text.Strip | main.py:34 | the stripped string is a contiguous block of the input, starting where the leading whitespace ends |
| Text.StripDropsOnlySpace | main.py:34 | what stripping drops on either side is whitespace only |
| Text.StripEnds | main.py:34 | a non-empty stripped string neither starts nor ends with whitespace |
| Text.StripEmptyIffAllSpace | main.py:34-35 | stripping gives the empty string iff the input is all whitespace |
| Text.ContainsIffOccurs | rag_handler.py:44 | `pat in s` holds iff `pat` occurs at some index of `s` |
| Text.ContainsWithin | rag_handler.py:44 | text around a match never hides it |
| Text.RemoveAll | main.py:34 | removal never lengthens the string and introduces no character that was not there |
| Text.RemoveAllFirstOccurrence | main.py:34 | the scan deletes the first occurrence: text before the leftmost occurrence is kept, that occurrence is removed and the scan resumes right after it |
| Text.RemoveAllAbsent | main.py:34 | a string without an occurrence of the pattern is left unchanged |
| Text.RemoveAllSkipsPrefix | main.py:34 | a prefix none of whose characters can start the pattern passes through removal untouched |
| Text.RemoveAllLeading | main.py:34 | rewrite step of `RemoveAll`, a helper for the filter proofs: a leading occurrence is removed and the scan resumes after it |
| Text.RemoveAllKeepsHead | main.py:34 | rewrite step of `RemoveAll`, a helper for the filter proofs: text that does not start an occurrence is kept and the scan moves one character on |
| Text.NatToString | servo_interface.py:60 | the rendering of an angle is a non-empty run of digits without a leading zero |
| Text.NatToStringRoundTrip | servo_interface.py:60 | reading the rendered digits back gives the angle |

## Left out

- Serial I/O is not modelled: opening the port, the reset wait, and the write and readline in `_send_command`. `Connect` takes the outcome of opening the link as a parameter, and `SendNext` takes the outcome of a write.
- The background consumer thread and its `running` flag are not modelled. `SendNext` is one round of it, called explicitly; the thread's interleaving with enqueuing is not modelled.
- `time.sleep` and every `print` are not modelled, including the keyword listing that `list_wake_words` prints.
- Servo.ServoInterface.RotateHorizontal: takes an `int`, so the `int(angle)` coercion of other argument types and its ValueError path are not modelled. The same holds for `RotateVertical`.
- Reading and parsing `college_data.json` is not modelled. `LoadCollegeData` receives the parsed value, or None when opening or parsing failed.
- `json.dumps` rendering with `indent=2` is not modelled. A prompt is the selected JSON value, and dictionary key order is not represented.
- JSON numbers are integers; floating-point values are not modelled.
- Rag.GenerateRagPrompt: a record missing a key a branch reads makes the source raise. This is modelled as a `Failure` result rather than as an exception that propagates to the caller.
- The internals of the native keyword-spotting engine and the audio library are not modelled. They are reduced to `Platform`, the device read and the engine's inference, all given as parameters.
- WakeWord.DecodeSamples: reads samples little-endian, the native byte order of the supported platforms. A big-endian host is not modelled.
- Faults during teardown (`close`, `terminate`, `delete` raising) are not modelled.
- The reply generator in `ai_handler.py` is not part of this model. `App` records only the request it is sent (`AskAI`).
- Speech output in `speech_handler.py` is not part of this model. `App` records only that the reply is spoken (`SpeakReply`).
- App.PollEffects: a fault raised by the reply generator or by speech output is caught by the loop's generic handler (main.py:45-46), which the model does not represent. In the model a request is always followed by speaking the reply.
- Constructing the reply generator, the speech handler and the recognizer is not modelled (main.py:13-15). They run after the detector is built and before the loop's `try`, so if one of them raises, the detector's engine, audio library and stream are never released; App.RunMain's cleanup after the loop assumes these constructors succeed.
- Configuration loading from the environment in `config.py` is not part of this model. The wake word is the constant `"bumblebee"`, and the access key is a parameter.
- Microphone capture and transcription are not modelled. Each pass carries its outcome: a transcript, a caught timeout or unintelligible audio, or a fault opening the microphone that escapes the loop.
- The unbounded `while True` loop and `KeyboardInterrupt` are modelled as a finite sequence of polls. The end of the sequence is the interrupt, so an interrupt arrives only between passes. An interrupt during capture, the reply request or speech is not modelled. In the source, `KeyboardInterrupt` is not an `Exception`, so it escapes both handlers, and a run stopped during the reply request ends with a request and no speech. `App.PromptBetweenCaptureAndSpeech` holds only for runs interrupted between passes.
- Unicode semantics of `lower` and `strip` are not modelled. Case folding and whitespace are those of ASCII.
- `replace` with an empty pattern is not modelled. The wake word is never empty.

=== FILE: app.dfy ===
/**
 * The assistant's main loop: poll the wake-word detector; after a detection capture
 * one spoken command, drop the wake word from it, and hand what remains to the reply
 * generator and then to speech; tear the detector down when the loop ends.
 */
module App {
  import opened Text
  import opened WakeWord

  /** `command.lower().replace(WAKE_WORD, "").strip()`. */
  function FilterCommand(command: string): string {
    Strip(RemoveAll(Lower(command), WAKE_WORD))
  }

  /** The filtered command has no upper-case letter, does not begin or end with
      whitespace, and is never longer than the transcript. */
  lemma FilterCommandShape(command: string)
    ensures var r := FilterCommand(command);
      && NoUpper(r)
      && (r != [] ==> !IsSpace(r[0]) && !IsSpace(r[|r| - 1]))
      && |r| <= |command|
  {
    var lowered := Lower(command);
    var removed := RemoveAll(lowered, WAKE_WORD);
    RemoveAllKeepsNoUpper(lowered, WAKE_WORD);
    StripKeepsNoUpper(removed);
    StripEnds(removed);
  }

  /** A command that is only the wake word, in any case, with whitespace around it
      filters to nothing. */
  lemma {:induction false} WakeWordAloneFiltersToEmpty(before: string, word: string, after: string)
    requires AllSpace(before) && AllSpace(after) && Lower(word) == WAKE_WORD
    ensures FilterCommand(before + word + after) == []
  {
    var lowered := Lower(before + word + after);
    assert lowered == before + (WAKE_WORD + after) by {
      LowerConcat(before + word, after);
      LowerConcat(before, word);
      AllSpaceNoUpper(before);
      AllSpaceNoUpper(after);
      LowerKeepsLowerCase(before);
      LowerKeepsLowerCase(after);
    }
    assert RemoveAll(lowered, WAKE_WORD) == before + after by {
      SpaceCannotStartWakeWord(before);
      RemoveAllSkipsPrefix(before, WAKE_WORD + after, WAKE_WORD);
      RemoveAllLeading(WAKE_WORD, after);
      SpaceCannotStartWakeWord(after);
      RemoveAllSkipsPrefix(after, [], WAKE_WORD);
      assert after + [] == after;
      assert RemoveAll([], WAKE_WORD) == [];
    }
    AllSpaceConcat(before, after);
    StripEmptyIffAllSpace(before + after);
  }

  lemma SpaceCannotStartWakeWord(s: string)
    requires AllSpace(s)
    ensures forall k :: 0 <= k < |s| ==> s[k] != WAKE_WORD[0]
  {
    AllSpaceIffEvery(s);
  }

  /** Deletion is a single left-to-right pass: removing the inner occurrence joins the
      text around it into a new occurrence, which stays. */
  lemma RemovalCanFormNewOccurrence(command: string)
    requires command == "bbumblebeeumblebee"
    ensures FilterCommand(command) == WAKE_WORD
  {
    DoubledCommandIsLower(command);
    DoubledCommandRemoval(command);
    StripKeepsTrimmed(WAKE_WORD);
  }

  lemma DoubledCommandIsLower(command: string)
    requires command == "bbumblebeeumblebee"
    ensures Lower(command) == command
  {
    assert NoUpper(command);
    LowerKeepsLowerCase(command);
  }

  lemma DoubledCommandRemoval(command: string)
    requires command == "bbumblebeeumblebee"
    ensures RemoveAll(command, WAKE_WORD) == WAKE_WORD
  {
    var w := WAKE_WORD;
    assert command[..9][1] != w[1];
    RemoveAllKeepsHead(command, w);
    assert command[1..] == "bumblebeeumblebee";
    RemoveAllDropsWakeWord(command[1..]);
    assert ['b'] + "umblebee" == w;
  }

  lemma RemoveAllDropsWakeWord(s: string)
    requires s == "bumblebeeumblebee"
    ensures RemoveAll(s, WAKE_WORD) == "umblebee"
  {
    assert s == WAKE_WORD + "umblebee";
    RemoveAllLeading(WAKE_WORD, "umblebee");
    RemoveAllShort("umblebee", WAKE_WORD);
  }

  /** What the speech recogniser yields for the command: the transcript, a timeout or
      unintelligible audio (both caught inside the loop), or a fault opening the
      microphone, which escapes the loop. */
  datatype Capture = Heard(text: string) | NotUnderstood | MicrophoneFault

  /** One pass of the loop: the detector's read and inference, and the command capture
      that follows a detection. */
  datatype Poll = Poll(read: nat -> ReadOutcome, process: seq<int> -> ProcessOutcome, capture: Capture)

  /** Calls to the collaborators: capturing a command, asking the reply generator,
      speaking its reply. */
  datatype Effect = CaptureCommand | AskAI(prompt: string) | SpeakReply

  /** How the loop ended: construction raised, the operator interrupted, or a
      microphone fault escaped. */
  datatype Exit = InitFailed(error: InitError) | Interrupted | Crashed

  /** A poll whose capture escapes the loop. */
  predicate Escapes(frameLength: nat, poll: Poll) {
    Detect(frameLength, poll.read, poll.process) && poll.capture.MicrophoneFault?
  }

  /** The calls made by one poll that does not escape. */
  function PollEffects(frameLength: nat, poll: Poll): (effects: seq<Effect>)
    ensures effects != [] ==> Detect(frameLength, poll.read, poll.process)
    ensures Detect(frameLength, poll.read, poll.process) && !poll.capture.MicrophoneFault? ==>
      effects != [] && effects[0] == CaptureCommand
    ensures || effects == []
            || effects == [CaptureCommand]
            || (&& poll.capture.Heard? && FilterCommand(poll.capture.text) != []
                && effects == [CaptureCommand, AskAI(FilterCommand(poll.capture.text)), SpeakReply])
  {
    if !Detect(frameLength, poll.read, poll.process) then []
    else
      match poll.capture
      case MicrophoneFault => []
      case NotUnderstood => [CaptureCommand]
      case Heard(text) =>
        var command := FilterCommand(text);
        if command != [] then [CaptureCommand, AskAI(command), SpeakReply] else [CaptureCommand]
  }

  /** The calls made by a run of polls, in order. */
  function Effects(frameLength: nat, polls: seq<Poll>): seq<Effect>
    decreases |polls|
  {
    if polls == [] then []
    else Effects(frameLength, polls[..|polls| - 1]) + PollEffects(frameLength, polls[|polls| - 1])
  }

  /** The index of the first poll that escapes, or the number of polls. */
  function FirstEscape(frameLength: nat, polls: seq<Poll>): (n: nat)
    ensures n <= |polls|
    ensures forall j :: 0 <= j < n ==> !Escapes(frameLength, polls[j])
    ensures n < |polls| ==> Escapes(frameLength, polls[n])
    decreases |polls|
  {
    if polls == [] then 0
    else if Escapes(frameLength, polls[0]) then 0
    else 1 + FirstEscape(frameLength, polls[1..])
  }

  /** Every prompt sent for a reply comes right after a command capture and is
      followed by speaking the reply. */
  lemma {:induction false} PromptBetweenCaptureAndSpeech(frameLength: nat, polls: seq<Poll>, k: nat)
    requires k < |Effects(frameLength, polls)| && Effects(frameLength, polls)[k].AskAI?
    ensures var effects := Effects(frameLength, polls);
      && 0 < k && effects[k - 1] == CaptureCommand
      && k + 1 < |effects| && effects[k + 1] == SpeakReply
    decreases |polls|
  {
    var init := polls[..|polls| - 1];
    var before := Effects(frameLength, init);
    var last := PollEffects(frameLength, polls[|polls| - 1]);
    var effects := Effects(frameLength, polls);
    assert effects == before + last;
    if k < |before| {
      assert before[k] == effects[k];
      PromptBetweenCaptureAndSpeech(frameLength, init, k);
      NeighboursInEarlierPasses(before, last, k);
    } else {
      var m := k - |before|;
      assert last[m] == effects[k];
      PollPrompt(frameLength, polls[|polls| - 1], m);
      NeighboursInLastPass(before, last, k, last[m].prompt);
    }
  }

  /** Appending a pass's calls keeps the neighbours of an earlier call. */
  lemma NeighboursInEarlierPasses(before: seq<Effect>, last: seq<Effect>, k: nat)
    requires 0 < k && k + 1 < |before|
    ensures (before + last)[k - 1] == before[k - 1] && (before + last)[k + 1] == before[k + 1]
  {
  }

  /** A request in the last pass sits between that pass's capture and speech. */
  lemma NeighboursInLastPass(before: seq<Effect>, last: seq<Effect>, k: nat, prompt: string)
    requires last == [CaptureCommand, AskAI(prompt), SpeakReply] && k == |before| + 1
    ensures k + 1 < |before + last|
    ensures (before + last)[k - 1] == CaptureCommand && (before + last)[k + 1] == SpeakReply
  {
  }

  /** Within one poll, a prompt is the non-empty filtered transcript of a command
      captured after a detection. */
  lemma PollPrompt(frameLength: nat, poll: Poll, m: nat)
    requires m < |PollEffects(frameLength, poll)| && PollEffects(frameLength, poll)[m].AskAI?
    ensures Detect(frameLength, poll.read, poll.process) && poll.capture.Heard?
    ensures var prompt := PollEffects(frameLength, poll)[m].prompt;
      && prompt != [] && prompt == FilterCommand(poll.capture.text)
      && m == 1 && PollEffects(frameLength, poll) == [CaptureCommand, AskAI(prompt), SpeakReply]
  {
    var effects := PollEffects(frameLength, poll);
    var text := if poll.capture.Heard? then poll.capture.text else [];
    OnlyRequestShape(effects, m, FilterCommand(text));
  }

  /** Of the three shapes a pass's calls can take, only the last holds a request. */
  lemma OnlyRequestShape(effects: seq<Effect>, m: nat, prompt: string)
    requires effects == [] || effects == [CaptureCommand] || effects == [CaptureCommand, AskAI(prompt), SpeakReply]
    requires m < |effects| && effects[m].AskAI?
    ensures m == 1 && effects == [CaptureCommand, AskAI(prompt), SpeakReply]
  {
    assert effects[m] != CaptureCommand && effects != [CaptureCommand];
  }

  /** A poll asks for a reply iff it detected the wake word, heard a command, and
      something remains of the command once the wake word is filtered out. */
  lemma AsksIffCommandRemains(frameLength: nat, poll: Poll)
    ensures (exists m :: 0 <= m < |PollEffects(frameLength, poll)| && PollEffects(frameLength, poll)[m].AskAI?)
        <==> Detect(frameLength, poll.read, poll.process) && poll.capture.Heard?
             && FilterCommand(poll.capture.text) != []
  {
    var effects := PollEffects(frameLength, poll);
    if exists m :: 0 <= m < |effects| && effects[m].AskAI? {
      var m :| 0 <= m < |effects| && effects[m].AskAI?;
      PollPrompt(frameLength, poll, m);
    }
    if Detect(frameLength, poll.read, poll.process) && poll.capture.Heard?
       && FilterCommand(poll.capture.text) != [] {
      assert effects[1].AskAI?;
    }
  }

  /** Every prompt sent for a reply is the filtered transcript of a command captured
      after a detection, and is never empty. */
  lemma {:induction false} PromptIsFilteredCommand(frameLength: nat, polls: seq<Poll>, k: nat)
    requires k < |Effects(frameLength, polls)| && Effects(frameLength, polls)[k].AskAI?
    ensures var prompt := Effects(frameLength, polls)[k].prompt;
      && prompt != []
      && exists j :: 0 <= j < |polls| && Detect(frameLength, polls[j].read, polls[j].process)
                     && polls[j].capture.Heard? && prompt == FilterCommand(polls[j].capture.text)
    decreases |polls|
  {
    var init := polls[..|polls| - 1];
    var before := Effects(frameLength, init);
    var j := |polls| - 1;
    var last := PollEffects(frameLength, polls[j]);
    var effects := Effects(frameLength, polls);
    assert effects == before + last;
    if k < |before| {
      PromptIsFilteredCommand(frameLength, init, k);
      var i :| 0 <= i < |init| && Detect(frameLength, init[i].read, init[i].process)
               && init[i].capture.Heard? && before[k].prompt == FilterCommand(init[i].capture.text);
      assert polls[i] == init[i] && effects[k] == before[k];
    } else {
      assert effects[k] == last[k - |before|];
      PollPrompt(frameLength, polls[j], k - |before|);
    }
  }

  /** Every prompt sent for a reply is lower-case. */
  lemma PromptIsLowerCase(frameLength: nat, polls: seq<Poll>, k: nat)
    requires k < |Effects(frameLength, polls)| && Effects(frameLength, polls)[k].AskAI?
    ensures NoUpper(Effects(frameLength, polls)[k].prompt)
  {
    PromptIsFilteredCommand(frameLength, polls, k);
    var j :| 0 <= j < |polls| && polls[j].capture.Heard?
             && Effects(frameLength, polls)[k].prompt == FilterCommand(polls[j].capture.text);
    FilterCommandShape(polls[j].capture.text);
  }

  /** Without a detection no command is ever captured and nothing is asked or said. */
  lemma {:induction false} NoDetectionNoEffects(frameLength: nat, polls: seq<Poll>)
    requires forall j :: 0 <= j < |polls| ==> !Detect(frameLength, polls[j].read, polls[j].process)
    ensures Effects(frameLength, polls) == []
    decreases |polls|
  {
    if polls != [] {
      NoDetectionNoEffects(frameLength, polls[..|polls| - 1]);
    }
  }

  /** The calls of the first `i + 1` polls extend those of the first `i`. */
  lemma EffectsOfPrefix(frameLength: nat, polls: seq<Poll>, i: nat)
    requires i < |polls|
    ensures Effects(frameLength, polls[..i + 1])
            == Effects(frameLength, polls[..i]) + PollEffects(frameLength, polls[i])
  {
    assert polls[..i + 1][..i] == polls[..i];
  }

  /** One pass of the loop of `main`: ask the detector and, only after a detection,
      capture a command, filter it and, when something remains, ask for a reply and
      speak it. `escaped` is a microphone fault raised by the capture. */
  method Pass(detector: WakeWordDetector, poll: Poll) returns (escaped: bool, step: seq<Effect>)
    ensures escaped == Escapes(detector.porcupine.frameLength, poll)
    ensures !escaped ==> step == PollEffects(detector.porcupine.frameLength, poll)
  {
    var detected := detector.Listen(poll.read, poll.process);
    if detected && poll.capture.MicrophoneFault? {
      return true, [];
    }
    step := [];
    if detected {
      step := [CaptureCommand];
      if poll.capture.Heard? {
        var command := FilterCommand(poll.capture.text);
        if command != [] {
          step := step + [AskAI(command), SpeakReply];
        }
      }
    }
    escaped := false;
  }

  /** The polling loop of `main`. It runs until the operator interrupts after the last
      poll, or a microphone fault escapes it. */
  method Serve(detector: WakeWordDetector, polls: seq<Poll>) returns (exit: Exit, effects: seq<Effect>)
    ensures var frameLength := detector.porcupine.frameLength;
      var n := FirstEscape(frameLength, polls);
      && effects == Effects(frameLength, polls[..n])
      && exit == (if n < |polls| then Crashed else Interrupted)
  {
    var frameLength := detector.porcupine.frameLength;
    effects := [];
    exit := Interrupted;
    ghost var n := FirstEscape(frameLength, polls);
    var i := 0;
    while i < |polls|
      invariant 0 <= i <= n
      invariant effects == Effects(frameLength, polls[..i])
      invariant exit == Interrupted
    {
      var escaped, step := Pass(detector, polls[i]);
      if escaped {
        assert i == n;
        exit := Crashed;
        break;
      }
      assert i < n;
      EffectsOfPrefix(frameLength, polls, i);
      effects := effects + step;
      i := i + 1;
    }
  }

  /** `main`: build the detector (a failure raises before the loop, so there is nothing to
      clean up), serve the polls, and clean the detector up however the loop ends.
      `events` is the detector's native resource history. */
  method RunMain(p: Platform, accessKey: string, polls: seq<Poll>)
    returns (exit: Exit, effects: seq<Effect>, events: seq<Event>)
    ensures var c := Construct(p, accessKey);
      && (c.outcome.Failure? ==> exit == InitFailed(c.outcome.error) && effects == [] && events == c.events)
      && (c.outcome.Success? ==>
            var frameLength := c.outcome.value.engine.frameLength;
            var n := FirstEscape(frameLength, polls);
            && effects == Effects(frameLength, polls[..n])
            && exit == (if n < |polls| then Crashed else Interrupted)
            && events == c.events + CLEANUP_EVENTS)
  {
    var created, acquired := WakeWordDetector.Create(p, accessKey);
    if created.Failure? {
      return InitFailed(created.error), [], acquired;
    }
    var detector := created.value;
    exit, effects := Serve(detector, polls);
    detector.Cleanup();
    events := detector.events;
  }
}

=== FILE: rag.dfy ===
/**
 * Retrieval of institution facts for the reply prompt: the query is lower-cased,
 * classified by prioritised keyword tests, and the matching section of the loaded
 * institution record is returned (its JSON rendering is left to the caller).
 */
module Rag {
  import opened Wrappers
  import opened Text

  /** A value as the JSON loader produces it. */
  datatype Json =
    | JNull
    | JBool(b: bool)
    | JNumber(n: int)
    | JString(s: string)
    | JArray(items: seq<Json>)
    | JObject(fields: map<string, Json>)

  /** Python truthiness of a loaded value: `None`, `False`, `0`, and empty strings,
      lists and objects are false. */
  predicate Truthy(j: Json) {
    match j
    case JNull => false
    case JBool(b) => b
    case JNumber(n) => n != 0
    case JString(s) => s != []
    case JArray(items) => items != []
    case JObject(fields) => fields != map[]
  }

  /** `j[key]` raises KeyError on an object without `key` and TypeError on anything
      that is not an object. */
  datatype LookupError = KeyError(key: string) | TypeError

  function Index(j: Json, key: string): (r: Result<Json, LookupError>)
    ensures r.Success? <==> j.JObject? && key in j.fields
    ensures r.Success? ==> r.value == j.fields[key]
    ensures j.JObject? && key !in j.fields ==> r == Failure(KeyError(key))
    ensures !j.JObject? ==> r == Failure(TypeError)
  {
    if !j.JObject? then Failure(TypeError)
    else if key in j.fields then Success(j.fields[key])
    else Failure(KeyError(key))
  }

  /** The sections a query can be routed to, in priority order. */
  datatype Topic = Departments | Facilities | Contact | StudentServices | Achievements | Basics

  function Rank(t: Topic): nat {
    match t
    case Departments => 0
    case Facilities => 1
    case Contact => 2
    case StudentServices => 3
    case Achievements => 4
    case Basics => 5
  }

  /** The keywords that route a query to each topic; the basics are the fallback. */
  function Cues(t: Topic): seq<string> {
    match t
    case Departments => ["course", "program", "department"]
    case Facilities => ["facility", "infrastructure"]
    case Contact => ["contact", "email", "phone", "address"]
    case StudentServices => ["club", "activity", "service"]
    case Achievements => ["achievement", "rank", "grade"]
    case Basics => []
  }

  /** The branch `generate_rag_prompt` takes for `query`. */
  function Classify(query: string): Topic {
    var q := Lower(query);
    if ContainsAny(q, Cues(Departments)) then Departments
    else if ContainsAny(q, Cues(Facilities)) then Facilities
    else if ContainsAny(q, Cues(Contact)) then Contact
    else if ContainsAny(q, Cues(StudentServices)) then StudentServices
    else if ContainsAny(q, Cues(Achievements)) then Achievements
    else Basics
  }

  /** Exactly one topic is chosen: the first, in priority order, one of whose keywords
      occurs in the lower-cased query, and the basics when none occurs. */
  lemma ClassifyIsFirstMatch(query: string, t: Topic)
    ensures Classify(query) == t <==>
      (t == Basics || ContainsAny(Lower(query), Cues(t)))
      && forall u: Topic :: Rank(u) < Rank(t) ==> !ContainsAny(Lower(query), Cues(u))
  {
    var q := Lower(query);
    if Classify(query) != t && (t == Basics || ContainsAny(q, Cues(t))) {
      var c := Classify(query);
      assert Rank(c) < Rank(t) && c != Basics && ContainsAny(q, Cues(c));
    }
  }

  /** Keyword tests ignore case. */
  lemma ClassifyIgnoresCase(query: string)
    ensures Classify(Lower(query)) == Classify(query)
  {
    LowerIdempotent(query);
  }

  /** Keyword tests look for substrings, not whole words: more text around a query can
      only move it to a topic of higher priority, never to a lower one. */
  lemma {:induction false} ClassifyMonotone(a: string, query: string, b: string)
    ensures Rank(Classify(a + query + b)) <= Rank(Classify(query))
  {
    var t := Classify(query);
    LowerConcat(a + query, b);
    LowerConcat(a, query);
    if t != Basics {
      ContainsAnyWithin(Lower(a), Lower(query), Lower(b), Cues(t));
    }
  }

  /** Keywords are matched as substrings: any query that mentions "programs", in any
      case, asks about departments. */
  lemma PluralQueryMatches(a: string, w: string, b: string)
    requires Lower(w) == "programs"
    ensures Classify(a + w + b) == Departments
  {
    var plural := "programs";
    LowerConcat(a + w, b);
    LowerConcat(a, w);
    assert Contains(plural, "program") by {
      assert plural[..7] == "program";
    }
    ContainsWithin(Lower(a), plural, Lower(b), "program");
    assert Contains(Lower(a + w + b), Cues(Departments)[1]);
  }

  /** What the prompt builder hands back: the fixed notice when there is no data, or
      the topic chosen together with the JSON value that is rendered for it. */
  datatype Prompt = NoInformation | Context(topic: Topic, value: Json)

  const EMPTY_OBJECT := JObject(map[])

  /** The keys of the institution record that the branch for `topic` looks up with
      `info[key]`; the contact branch reads `location` with a default instead. */
  function KeysRead(topic: Topic): seq<string> {
    match topic
    case Departments => ["departments"]
    case Facilities => ["facilities"]
    case Contact => ["contact"]
    case StudentServices => ["student_services"]
    case Achievements => ["achievements"]
    case Basics => ["name", "accreditation"]
  }

  /** The section of the institution record that `topic` selects: a list for the four
      list topics, the contact details with the location (an empty object when the
      record has none), or the name and accreditation. */
  function Section(info: Json, topic: Topic): (r: Result<Json, LookupError>)
    ensures !info.JObject? ==> r == Failure(TypeError)
    ensures info.JObject? ==> (r.Success? <==> forall key :: key in KeysRead(topic) ==> key in info.fields)
  {
    match topic
    case Departments => Index(info, "departments")
    case Facilities => Index(info, "facilities")
    case Contact =>
      var contact :- Index(info, "contact");
      var location := if "location" in info.fields then info.fields["location"] else EMPTY_OBJECT;
      Success(JObject(map["contact" := contact, "location" := location]))
    case StudentServices => Index(info, "student_services")
    case Achievements => Index(info, "achievements")
    case Basics =>
      var name :- Index(info, "name");
      var accreditation :- Index(info, "accreditation");
      Success(JObject(map["name" := name, "accreditation" := accreditation]))
  }

  /** `generate_rag_prompt(query)` over the loaded record `data`; a record without the
      keys a branch reads raises, which is the failure case here. */
  function GenerateRagPrompt(data: Json, query: string): (r: Result<Prompt, LookupError>)
    ensures !Truthy(data) ==> r == Success(NoInformation)
    ensures Truthy(data) ==>
      (r.Failure? <==> !(data.JObject? && "institution" in data.fields)
                       || Section(data.fields["institution"], Classify(query)).Failure?)
    ensures Truthy(data) && r.Success? ==>
      && r.value.Context? && r.value.topic == Classify(query)
      && r.value.value == Section(data.fields["institution"], Classify(query)).value
  {
    if !Truthy(data) then Success(NoInformation)
    else
      var topic := Classify(query);
      var info :- Index(data, "institution");
      var value :- Section(info, topic);
      Success(Context(topic, value))
  }

  lemma GenerateRagPromptIgnoresCase(data: Json, query: string)
    ensures GenerateRagPrompt(data, Lower(query)) == GenerateRagPrompt(data, query)
  {
    ClassifyIgnoresCase(query);
  }

  const RECORD_KEYS := ["departments", "facilities", "contact", "student_services", "achievements", "name", "accreditation"]

  /** An institution record that has every key the branches read. */
  predicate WellFormed(data: Json) {
    && data.JObject? && "institution" in data.fields
    && var info := data.fields["institution"];
    && info.JObject?
    && forall key :: key in RECORD_KEYS ==> key in info.fields
  }

  /** On a record holding the keys a topic's branch reads, that topic's section is found,
      with the value it promises; any other key may be missing. */
  lemma SectionOfRecord(info: Json, topic: Topic)
    requires info.JObject? && forall key :: key in KeysRead(topic) ==> key in info.fields
    ensures var r := Section(info, topic);
      var f := info.fields;
      && r.Success?
      && (topic == Departments ==> r.value == f["departments"])
      && (topic == Facilities ==> r.value == f["facilities"])
      && (topic == StudentServices ==> r.value == f["student_services"])
      && (topic == Achievements ==> r.value == f["achievements"])
      && (topic == Contact ==> r.value == JObject(map[
            "contact" := f["contact"],
            "location" := if "location" in f then f["location"] else EMPTY_OBJECT]))
      && (topic == Basics ==> r.value == JObject(map[
            "name" := f["name"], "accreditation" := f["accreditation"]]))
  {
    match topic
    case Departments => assert KeysRead(topic)[0] in info.fields;
    case Facilities => assert KeysRead(topic)[0] in info.fields;
    case Contact => assert KeysRead(topic)[0] in info.fields;
    case StudentServices => assert KeysRead(topic)[0] in info.fields;
    case Achievements => assert KeysRead(topic)[0] in info.fields;
    case Basics => assert KeysRead(topic)[0] in info.fields && KeysRead(topic)[1] in info.fields;
  }

  /** Every key a branch reads is one of the record's keys. */
  lemma KeysReadAreRecordKeys(topic: Topic)
    ensures forall key :: key in KeysRead(topic) ==> key in RECORD_KEYS
  {
    var keys := KeysRead(topic);
    match topic
    case Departments => assert keys[0] == RECORD_KEYS[0];
    case Facilities => assert keys[0] == RECORD_KEYS[1];
    case Contact => assert keys[0] == RECORD_KEYS[2];
    case StudentServices => assert keys[0] == RECORD_KEYS[3];
    case Achievements => assert keys[0] == RECORD_KEYS[4];
    case Basics => assert keys[0] == RECORD_KEYS[5] && keys[1] == RECORD_KEYS[6];
  }

  /** On a complete record every query is answered by one of the six branches, each with
      the value it promises; the trailing empty-string return is never reached. */
  lemma WellFormedAnswers(data: Json, query: string)
    requires Truthy(data) && WellFormed(data)
    ensures var r := GenerateRagPrompt(data, query);
      var info := data.fields["institution"].fields;
      && r.Success? && r.value.Context?
      && (r.value.topic == Departments ==> r.value.value == info["departments"])
      && (r.value.topic == Facilities ==> r.value.value == info["facilities"])
      && (r.value.topic == StudentServices ==> r.value.value == info["student_services"])
      && (r.value.topic == Achievements ==> r.value.value == info["achievements"])
      && (r.value.topic == Contact ==> r.value.value == JObject(map[
            "contact" := info["contact"],
            "location" := if "location" in info then info["location"] else EMPTY_OBJECT]))
      && (r.value.topic == Basics ==> r.value.value == JObject(map[
            "name" := info["name"], "accreditation" := info["accreditation"]]))
  {
    KeysReadAreRecordKeys(Classify(query));
    SectionOfRecord(data.fields["institution"], Classify(query));
  }

  /** The record used when the data file cannot be loaded. */
  function Placeholder(): (data: Json)
    ensures Truthy(data) && WellFormed(data)
    ensures var info := data.fields["institution"].fields;
      forall key :: key in ["departments", "facilities", "student_services", "achievements"] ==>
        info[key] == JArray([])
    ensures "location" !in data.fields["institution"].fields
  {
    var d := JObject(map["institution" := JObject(map[
      "name" := JString("Kristu Jyoti College"),
      "accreditation" := JString("Academic Institution"),
      "contact" := JObject(map[
        "email" := JString("info@example.edu"),
        "phone" := JString("123-456-7890")]),
      "departments" := JArray([]),
      "facilities" := JArray([]),
      "student_services" := JArray([]),
      "achievements" := JArray([])])]);
    assert "institution" in d.fields;
    d
  }

  /** `load_college_data`: the parsed file, or the placeholder when opening or parsing
      it failed (`parsed` is None). */
  function LoadCollegeData(parsed: Option<Json>): (data: Json)
    ensures parsed.None? ==> data == Placeholder() && WellFormed(data) && Truthy(data)
    ensures parsed.Some? ==> data == parsed.value
  {
    match parsed
    case Some(j) => j
    case None => Placeholder()
  }

  /** With the placeholder, list queries find empty lists, a contact query finds the
      placeholder contact and an empty location, and anything else the name. */
  lemma PlaceholderAnswers(query: string)
    ensures var r := GenerateRagPrompt(LoadCollegeData(None), query);
      && r.Success?
      && (Classify(query) in {Departments, Facilities, StudentServices, Achievements} ==>
            r.value == Context(Classify(query), JArray([])))
      && (Classify(query) == Contact ==>
            && r.value.value.fields["contact"] == Placeholder().fields["institution"].fields["contact"]
            && r.value.value.fields["location"] == EMPTY_OBJECT)
      && (Classify(query) == Basics ==>
            r.value.value.fields["name"] == JString("Kristu Jyoti College"))
  {
    WellFormedAnswers(LoadCollegeData(None), query);
  }
}

=== FILE: servo.dfy ===
/**
 * The servo head controller: a connection flag and a first-in first-out queue of
 * text commands for the Arduino. Motion requests are validated and, only while
 * connected, turned into commands appended at the back of the queue; a background
 * consumer takes them from the front and writes them to the serial link.
 */
module Servo {
  import opened Wrappers
  import opened Text

  /** The named motion patterns of the interface's pattern table. */
  datatype Pattern = Greeting | Thinking | Listening | Confused

  const DEFAULT_PORT := "/dev/ttyACM0"
  const DEFAULT_BAUD_RATE := 9600

  predicate ValidHorizontal(angle: int) {
    0 <= angle <= 180
  }

  predicate ValidVertical(angle: int) {
    45 <= angle <= 135
  }

  /** The command that turns the head to `angle` degrees horizontally. */
  function HorizontalCommand(angle: nat): string {
    "rotate:H," + NatToString(angle)
  }

  /** The command that tilts the head to `angle` degrees vertically. */
  function VerticalCommand(angle: nat): string {
    "rotate:V," + NatToString(angle)
  }

  /** A rotation command names its axis and its angle unambiguously. */
  lemma RotateCommandsDistinct(a: nat, b: nat)
    ensures HorizontalCommand(a) == HorizontalCommand(b) ==> a == b
    ensures VerticalCommand(a) == VerticalCommand(b) ==> a == b
    ensures HorizontalCommand(a) != VerticalCommand(b)
  {
    var h, v := "rotate:H,", "rotate:V,";
    if HorizontalCommand(a) == HorizontalCommand(b) {
      assert NatToString(a) == HorizontalCommand(a)[|h|..];
      NatToStringInjective(a, b);
    }
    if VerticalCommand(a) == VerticalCommand(b) {
      assert NatToString(a) == VerticalCommand(a)[|v|..];
      NatToStringInjective(a, b);
    }
    assert HorizontalCommand(a)[7] != VerticalCommand(b)[7];
  }

  /** The key under which the pattern table lists a pattern. */
  function PatternName(p: Pattern): string {
    match p
    case Greeting => "greeting"
    case Thinking => "thinking"
    case Listening => "listening"
    case Confused => "confused"
  }

  /** Looks a name up in the pattern table; names outside it are unknown. */
  function PatternNamed(name: string): (p: Option<Pattern>)
    ensures p.Some? ==> PatternName(p.value) == name
    ensures p.None? ==> forall q: Pattern :: PatternName(q) != name
  {
    if name == "greeting" then Some(Greeting)
    else if name == "thinking" then Some(Thinking)
    else if name == "listening" then Some(Listening)
    else if name == "confused" then Some(Confused)
    else None
  }

  lemma PatternNameRoundTrip(p: Pattern)
    ensures PatternNamed(PatternName(p)) == Some(p)
  {
  }

  /** The commands a pattern appends when the interface is connected. */
  function PatternCommands(p: Pattern): seq<string> {
    match p
    case Greeting => ["center", "nod"]
    case Thinking => [HorizontalCommand(60), HorizontalCommand(120), HorizontalCommand(90)]
    case Listening => [VerticalCommand(80), VerticalCommand(100), VerticalCommand(90)]
    case Confused => [HorizontalCommand(70), HorizontalCommand(110), HorizontalCommand(90), "nod"]
  }

  /** The pattern commands written out as the strings the Arduino receives. */
  lemma PatternCommandsSpelled()
    ensures PatternCommands(Greeting) == ["center", "nod"]
    ensures PatternCommands(Thinking) == ["rotate:H,60", "rotate:H,120", "rotate:H,90"]
    ensures PatternCommands(Listening) == ["rotate:V,80", "rotate:V,100", "rotate:V,90"]
    ensures PatternCommands(Confused) == ["rotate:H,70", "rotate:H,110", "rotate:H,90", "nod"]
  {
    ThinkingSpelled();
    ListeningSpelled();
    ConfusedSpelled();
  }

  lemma ThinkingSpelled()
    ensures PatternCommands(Thinking) == ["rotate:H,60", "rotate:H,120", "rotate:H,90"]
  {
    CommandSpelled(60, "60");
    assert HorizontalCommand(60) == "rotate:H,60";
    CommandSpelled(120, "120");
    assert HorizontalCommand(120) == "rotate:H,120";
    CommandSpelled(90, "90");
    assert HorizontalCommand(90) == "rotate:H,90";
  }

  lemma ListeningSpelled()
    ensures PatternCommands(Listening) == ["rotate:V,80", "rotate:V,100", "rotate:V,90"]
  {
    CommandSpelled(80, "80");
    assert VerticalCommand(80) == "rotate:V,80";
    CommandSpelled(100, "100");
    assert VerticalCommand(100) == "rotate:V,100";
    CommandSpelled(90, "90");
    assert VerticalCommand(90) == "rotate:V,90";
  }

  lemma ConfusedSpelled()
    ensures PatternCommands(Confused) == ["rotate:H,70", "rotate:H,110", "rotate:H,90", "nod"]
  {
    CommandSpelled(70, "70");
    assert HorizontalCommand(70) == "rotate:H,70";
    CommandSpelled(110, "110");
    assert HorizontalCommand(110) == "rotate:H,110";
    CommandSpelled(90, "90");
    assert HorizontalCommand(90) == "rotate:H,90";
  }

  lemma CommandSpelled(angle: nat, digits: string)
    requires NatToString(angle) == digits
    ensures HorizontalCommand(angle) == "rotate:H," + digits
    ensures VerticalCommand(angle) == "rotate:V," + digits
  {
  }

  const GREETING_CUES := ["hello", "hi", "greet", "welcome"]
  const THINKING_CUES := ["hmm", "let me think", "thinking", "consider"]
  const CONFUSED_CUES := ["not sure", "don't know", "confused", "unclear"]

  /** The pattern `react_to_emotions` plays for `text`: the lower-cased text is searched
      for the greeting cues, then the thinking cues, then the confused cues, and the
      first group with a match decides. */
  function EmotionPattern(text: string): (p: Option<Pattern>)
    ensures p != Some(Listening)
    ensures p == None <==>
      !ContainsAny(Lower(text), GREETING_CUES) && !ContainsAny(Lower(text), THINKING_CUES)
      && !ContainsAny(Lower(text), CONFUSED_CUES)
  {
    var t := Lower(text);
    if ContainsAny(t, GREETING_CUES) then Some(Greeting)
    else if ContainsAny(t, THINKING_CUES) then Some(Thinking)
    else if ContainsAny(t, CONFUSED_CUES) then Some(Confused)
    else None
  }

  /** The cue groups are tested in the order greeting, thinking, confused, and the
      first group with a cue in the lower-cased text decides the pattern. */
  lemma EmotionPatternIsFirstMatch(text: string)
    ensures var t := Lower(text);
      && (EmotionPattern(text) == Some(Greeting) <==> ContainsAny(t, GREETING_CUES))
      && (EmotionPattern(text) == Some(Thinking) <==>
            !ContainsAny(t, GREETING_CUES) && ContainsAny(t, THINKING_CUES))
      && (EmotionPattern(text) == Some(Confused) <==>
            !ContainsAny(t, GREETING_CUES) && !ContainsAny(t, THINKING_CUES) && ContainsAny(t, CONFUSED_CUES))
  {
  }

  /** Cues are substrings, so "let me think" and "thinking" both contain "hi": text that
      uses them plays the greeting, and only "hmm" or "consider" can select thinking. */
  lemma ThinkingOnlyThroughHmmOrConsider(text: string)
    ensures EmotionPattern(text) == Some(Thinking) ==>
      Contains(Lower(text), "hmm") || Contains(Lower(text), "consider")
    ensures Contains(Lower(text), "thinking") || Contains(Lower(text), "let me think") ==>
      EmotionPattern(text) == Some(Greeting)
  {
    var t := Lower(text);
    if Contains(t, "thinking") {
      HiInside("thinking");
      ContainsTransitive(t, "thinking", "hi");
    }
    if Contains(t, "let me think") {
      HiInside("let me think");
      ContainsTransitive(t, "let me think", "hi");
    }
    assert GREETING_CUES[1] == "hi";
  }

  lemma HiInside(cue: string)
    requires cue == "thinking" || cue == "let me think"
    ensures Contains(cue, "hi")
  {
    var i := if cue == "thinking" then 1 else 8;
    assert cue[i] == 'h' && cue[i + 1] == 'i';
    assert cue[i..i + 2] == "hi";
    assert OccursAt(cue, "hi", i);
    ContainsIffOccurs(cue, "hi");
  }

  /** Upper case in the text never changes the pattern chosen. */
  lemma EmotionPatternIgnoresCase(text: string)
    ensures EmotionPattern(Lower(text)) == EmotionPattern(text)
  {
    LowerIdempotent(text);
  }

  class ServoInterface {
    const port: string
    const baudRate: int
    var connected: bool
    /** Commands waiting for the serial link, oldest first. */
    var queue: seq<string>

    /** The port and baud rate default to those of an Arduino on its first USB port. */
    constructor (port: string := DEFAULT_PORT, baudRate: int := DEFAULT_BAUD_RATE)
      ensures this.port == port && this.baudRate == baudRate
      ensures !connected && queue == []
    {
      this.port := port;
      this.baudRate := baudRate;
      connected := false;
      queue := [];
    }

    /** Opening the serial link is abstracted to its outcome `linkUp`. */
    method Connect(linkUp: bool) returns (ok: bool)
      modifies this
      ensures ok == linkUp && connected == linkUp
      ensures queue == old(queue)
    {
      connected := linkUp;
      ok := linkUp;
    }

    /** Pending commands stay queued. */
    method Disconnect()
      modifies this
      ensures !connected
      ensures queue == old(queue)
    {
      if connected {
        connected := false;
      }
    }

    method RotateHorizontal(angle: int)
      modifies this
      ensures connected == old(connected)
      ensures queue == old(queue) +
        if connected && ValidHorizontal(angle) then [HorizontalCommand(angle)] else []
    {
      if !connected {
        return;
      }
      if 0 <= angle <= 180 {
        queue := queue + [HorizontalCommand(angle)];
      }
    }

    method RotateVertical(angle: int)
      modifies this
      ensures connected == old(connected)
      ensures queue == old(queue) +
        if connected && ValidVertical(angle) then [VerticalCommand(angle)] else []
    {
      if !connected {
        return;
      }
      if 45 <= angle <= 135 {
        queue := queue + [VerticalCommand(angle)];
      }
    }

    method Scan()
      modifies this
      ensures connected == old(connected)
      ensures queue == old(queue) + if connected then ["scan"] else []
    {
      if connected {
        queue := queue + ["scan"];
      }
    }

    method Center()
      modifies this
      ensures connected == old(connected)
      ensures queue == old(queue) + if connected then ["center"] else []
    {
      if connected {
        queue := queue + ["center"];
      }
    }

    method Nod()
      modifies this
      ensures connected == old(connected)
      ensures queue == old(queue) + if connected then ["nod"] else []
    {
      if connected {
        queue := queue + ["nod"];
      }
    }

    /** Plays the pattern listed under `name`; an unknown name changes nothing. */
    method MotionPattern(name: string)
      modifies this
      ensures connected == old(connected)
      ensures queue == old(queue) +
        if connected && PatternNamed(name).Some? then PatternCommands(PatternNamed(name).value) else []
    {
      if !connected {
        return;
      }
      var p := PatternNamed(name);
      if p.Some? {
        match p.value
        case Greeting => PatternGreeting();
        case Thinking => PatternThinking();
        case Listening => PatternListening();
        case Confused => PatternConfused();
      }
    }

    /** Enqueues directly, without looking at the connection. */
    method PatternGreeting()
      modifies this
      ensures connected == old(connected)
      ensures queue == old(queue) + PatternCommands(Greeting)
    {
      queue := queue + ["center"];
      queue := queue + ["nod"];
    }

    method PatternThinking()
      modifies this
      ensures connected == old(connected)
      ensures queue == old(queue) + if connected then PatternCommands(Thinking) else []
    {
      RotateHorizontal(60);
      RotateHorizontal(120);
      RotateHorizontal(90);
    }

    method PatternListening()
      modifies this
      ensures connected == old(connected)
      ensures queue == old(queue) + if connected then PatternCommands(Listening) else []
    {
      RotateVertical(80);
      RotateVertical(100);
      RotateVertical(90);
    }

    method PatternConfused()
      modifies this
      ensures connected == old(connected)
      ensures queue == old(queue) + if connected then PatternCommands(Confused) else []
    {
      RotateHorizontal(70);
      RotateHorizontal(110);
      RotateHorizontal(90);
      Nod();
    }

    /** Plays at most one pattern, the one `EmotionPattern` picks for `text`. */
    method ReactToEmotions(text: string)
      modifies this
      ensures connected == old(connected)
      ensures queue == old(queue) +
        if connected && EmotionPattern(text).Some? then PatternCommands(EmotionPattern(text).value) else []
    {
      var p := EmotionPattern(text);
      if p.Some? {
        PatternNameRoundTrip(p.value);
        MotionPattern(PatternName(p.value));
      }
    }

    /** One round of the background consumer: the oldest command is taken from the
        queue and written to the serial link, whose outcome is `writeOk`; a failed
        write marks the interface disconnected. */
    method SendNext(writeOk: bool) returns (sent: Option<string>)
      modifies this
      ensures old(queue) == [] ==> sent == None && queue == [] && connected == old(connected)
      ensures old(queue) != [] ==>
        sent == Some(old(queue)[0]) && queue == old(queue)[1..] && connected == (old(connected) && writeOk)
    {
      if queue == [] {
        return None;
      }
      sent := Some(queue[0]);
      queue := queue[1..];
      if !writeOk {
        connected := false;
      }
    }
  }
}

=== FILE: text.dfy ===
/**
 * The string operations the assistant applies to transcripts, queries and commands:
 * `str.lower`, `str.strip`, `pat in s`, `s.replace(pat, "")` and `str(n)` for a
 * non-negative int. Case folding and whitespace are those of ASCII.
 */
module Text {

  predicate IsUpper(c: char) {
    'A' <= c <= 'Z'
  }

  /** Python's `str.isspace` on ASCII: tab, line feed, vertical tab, form feed,
      carriage return, the four separators 0x1C to 0x1F, and space. */
  predicate IsSpace(c: char) {
    (9 <= c as int <= 13) || (28 <= c as int <= 32)
  }

  /** Every character of `s` is whitespace. */
  predicate AllSpace(s: string)
    decreases |s|
  {
    s == [] || (IsSpace(s[0]) && AllSpace(s[1..]))
  }

  lemma {:induction false} AllSpaceIffEvery(s: string)
    ensures AllSpace(s) <==> forall k :: 0 <= k < |s| ==> IsSpace(s[k])
    decreases |s|
  {
    if s != [] {
      AllSpaceIffEvery(s[1..]);
      assert forall k :: 1 <= k < |s| ==> s[1..][k - 1] == s[k];
    }
  }

  predicate NoUpper(s: string) {
    forall k :: 0 <= k < |s| ==> !IsUpper(s[k])
  }

  function LowerChar(c: char): (d: char)
    ensures !IsUpper(d)
    ensures IsUpper(c) ==> d as int == c as int + 32
    ensures !IsUpper(c) ==> d == c
  {
    if IsUpper(c) then (c as int + 32) as char else c
  }

  /** `s.lower()`: every upper-case letter replaced by its lower-case form, nothing else touched. */
  function Lower(s: string): (r: string)
    ensures |r| == |s| && NoUpper(r)
    ensures forall k :: 0 <= k < |s| ==> r[k] == LowerChar(s[k])
  {
    seq(|s|, k requires 0 <= k < |s| => LowerChar(s[k]))
  }

  lemma LowerIdempotent(s: string)
    ensures Lower(Lower(s)) == Lower(s)
  {
  }

  lemma LowerConcat(a: string, b: string)
    ensures Lower(a + b) == Lower(a) + Lower(b)
  {
  }

  lemma LowerKeepsLowerCase(s: string)
    requires NoUpper(s)
    ensures Lower(s) == s
  {
  }

  /** Whitespace has no upper-case letter. */
  lemma AllSpaceNoUpper(s: string)
    requires AllSpace(s)
    ensures NoUpper(s)
  {
    AllSpaceIffEvery(s);
  }

  lemma AllSpaceConcat(a: string, b: string)
    requires AllSpace(a) && AllSpace(b)
    ensures AllSpace(a + b)
  {
    AllSpaceIffEvery(a);
    AllSpaceIffEvery(b);
    AllSpaceIffEvery(a + b);
    forall k | 0 <= k < |a + b|
      ensures IsSpace((a + b)[k])
    {
      if k < |a| {
        assert (a + b)[k] == a[k];
      } else {
        assert (a + b)[k] == b[k - |a|];
      }
    }
  }

  /** The index of the first character at or after `i` that is not whitespace, or
      `|s|` when there is none. */
  function FirstNonSpace(s: string, i: nat): (j: nat)
    requires i <= |s|
    ensures i <= j <= |s|
    ensures forall k :: i <= k < j ==> IsSpace(s[k])
    ensures j < |s| ==> !IsSpace(s[j])
    decreases |s| - i
  {
    if i < |s| && IsSpace(s[i]) then FirstNonSpace(s, i + 1) else i
  }

  /** The length of `s[..n]` once its trailing whitespace is dropped. */
  function EndOfText(s: string, n: nat): (j: nat)
    requires n <= |s|
    ensures j <= n
    ensures forall k :: j <= k < n ==> IsSpace(s[k])
    ensures j > 0 ==> !IsSpace(s[j - 1])
  {
    if n > 0 && IsSpace(s[n - 1]) then EndOfText(s, n - 1) else n
  }

  /** `s.lstrip()`: drops the whitespace at the front. */
  function StripLeft(s: string): (r: string)
    ensures |r| <= |s| && r == s[|s| - |r|..]
    ensures AllSpace(s[..|s| - |r|])
    ensures r != [] ==> !IsSpace(r[0])
  {
    var i := FirstNonSpace(s, 0);
    AllSpaceIffEvery(s[..i]);
    s[i..]
  }

  /** `s.rstrip()`: drops the whitespace at the back. */
  function StripRight(s: string): (r: string)
    ensures |r| <= |s| && r == s[..|r|]
    ensures AllSpace(s[|r|..])
    ensures r != [] ==> !IsSpace(r[|r| - 1])
  {
    var j := EndOfText(s, |s|);
    AllSpaceIffEvery(s[j..]);
    s[..j]
  }

  /** `s.strip()`: the stripped string is the block of `s` that starts where the
      leading whitespace ends. */
  function Strip(s: string): (r: string)
    ensures var i := |s| - |StripLeft(s)|;
      i + |r| <= |s| && r == s[i..i + |r|]
  {
    var l := StripLeft(s);
    InfixOfRight(s, l);
    StripRight(l)
  }

  /** Stripping the back of a suffix of `s` leaves a block of `s`. */
  lemma {:induction false} InfixOfRight(s: string, l: string)
    requires |l| <= |s| && l == s[|s| - |l|..]
    ensures var i := |s| - |l|;
      i + |StripRight(l)| <= |s| && StripRight(l) == s[i..i + |StripRight(l)|]
  {
    PrefixOfSuffix(s, l, StripRight(l), |s| - |l|);
  }

  /** A prefix of a suffix of `s` is a slice of `s`. */
  lemma PrefixOfSuffix(s: string, l: string, r: string, i: nat)
    requires i <= |s| && l == s[i..] && |r| <= |l| && r == l[..|r|]
    ensures i + |r| <= |s| && r == s[i..i + |r|]
  {
    assert s[i..][..|r|] == s[i..i + |r|];
  }

  /** What stripping drops, on either side, is whitespace only. */
  lemma StripDropsOnlySpace(s: string)
    ensures var i := |s| - |StripLeft(s)|;
      i + |Strip(s)| <= |s| && AllSpace(s[..i]) && AllSpace(s[i + |Strip(s)|..])
  {
    var l := StripLeft(s);
    var i := |s| - |l|;
    assert l == s[i..] && l[|Strip(s)|..] == s[i + |Strip(s)|..];
  }

  /** A non-empty stripped string neither starts nor ends with whitespace. */
  lemma StripEnds(s: string)
    ensures var r := Strip(s);
      r != [] ==> !IsSpace(r[0]) && !IsSpace(r[|r| - 1])
  {
    var l := StripLeft(s);
    var r := Strip(s);
    if r != [] {
      assert r == l[..|r|] && r[0] == l[0];
    }
  }

  /** A string that neither starts nor ends with whitespace is left as it is. */
  lemma StripKeepsTrimmed(s: string)
    requires s != [] && !IsSpace(s[0]) && !IsSpace(s[|s| - 1])
    ensures Strip(s) == s
  {
    assert StripLeft(s) == s;
  }

  lemma {:induction false} StripEmptyIffAllSpace(s: string)
    ensures Strip(s) == [] <==> AllSpace(s)
  {
    StripDropsOnlySpace(s);
    var l := StripLeft(s);
    var i := |s| - |l|;
    var r := Strip(s);
    if r == [] {
      assert l[|r|..] == l;
      assert l == [];
      assert s[..i] == s;
    } else {
      StripEnds(s);
      assert r[0] == s[i] && !IsSpace(s[i]);
      AllSpaceIffEvery(s);
    }
  }

  lemma StripKeepsNoUpper(s: string)
    requires NoUpper(s)
    ensures NoUpper(Strip(s))
  {
    var i := |s| - |StripLeft(s)|;
    NoUpperSlice(s, i, i + |Strip(s)|);
  }

  lemma NoUpperSlice(s: string, i: nat, j: nat)
    requires NoUpper(s) && i <= j <= |s|
    ensures NoUpper(s[i..j])
  {
    forall k | 0 <= k < j - i
      ensures !IsUpper(s[i..j][k])
    {
      assert s[i..j][k] == s[i + k];
    }
  }

  /** `pat` starts at index `i` of `s`. */
  predicate OccursAt(s: string, pat: string, i: int) {
    0 <= i && i + |pat| <= |s| && s[i..i + |pat|] == pat
  }

  /** Python's `pat in s` on strings: `pat` occurs as a contiguous block of `s`. */
  function Contains(s: string, pat: string): bool
    decreases |s|
  {
    |pat| <= |s| && (s[..|pat|] == pat || Contains(s[1..], pat))
  }

  lemma {:induction false} ContainsIffOccurs(s: string, pat: string)
    ensures Contains(s, pat) <==> exists i :: OccursAt(s, pat, i)
    decreases |s|
  {
    if |pat| <= |s| && s[..|pat|] != pat {
      ContainsIffOccurs(s[1..], pat);
    }
    if Contains(s, pat) {
      if s[..|pat|] == pat {
        assert OccursAt(s, pat, 0);
      } else {
        var i :| OccursAt(s[1..], pat, i);
        assert s[1..][i..i + |pat|] == s[i + 1..i + 1 + |pat|];
        assert OccursAt(s, pat, i + 1);
      }
    }
    if exists i :: OccursAt(s, pat, i) {
      var i :| OccursAt(s, pat, i);
      if i > 0 && s[..|pat|] != pat {
        assert s[1..][i - 1..i - 1 + |pat|] == s[i..i + |pat|];
        assert OccursAt(s[1..], pat, i - 1);
      }
    }
  }

  /** Text around a match never hides it. */
  lemma ContainsWithin(a: string, s: string, b: string, pat: string)
    requires Contains(s, pat)
    ensures Contains(a + s + b, pat)
  {
    ContainsIffOccurs(s, pat);
    var i :| OccursAt(s, pat, i);
    assert (a + s + b)[|a| + i..|a| + i + |pat|] == s[i..i + |pat|];
    assert OccursAt(a + s + b, pat, |a| + i);
    ContainsIffOccurs(a + s + b, pat);
  }

  /** A match inside a match is a match. */
  lemma ContainsTransitive(s: string, mid: string, pat: string)
    requires Contains(s, mid) && Contains(mid, pat)
    ensures Contains(s, pat)
  {
    ContainsIffOccurs(s, mid);
    var i :| OccursAt(s, mid, i);
    assert s == s[..i] + mid + s[i + |mid|..];
    ContainsWithin(s[..i], mid, s[i + |mid|..], pat);
  }

  /** Python's `any(word in s for word in words)`. */
  predicate ContainsAny(s: string, words: seq<string>) {
    exists k :: 0 <= k < |words| && Contains(s, words[k])
  }

  lemma ContainsAnyWithin(a: string, s: string, b: string, words: seq<string>)
    requires ContainsAny(s, words)
    ensures ContainsAny(a + s + b, words)
  {
    var k :| 0 <= k < |words| && Contains(s, words[k]);
    ContainsWithin(a, s, b, words[k]);
  }

  /** `s.replace(pat, "")`: scans from the left and deletes each occurrence of `pat`,
      resuming after the deleted text, so occurrences never overlap. */
  function RemoveAll(s: string, pat: string): (r: string)
    requires pat != []
    ensures |r| <= |s|
    ensures forall c :: c in r ==> c in s
    decreases |s|
  {
    if |s| < |pat| then s
    else if s[..|pat|] == pat then
      assert s == s[..|pat|] + s[|pat|..];
      RemoveAll(s[|pat|..], pat)
    else
      assert s == [s[0]] + s[1..];
      [s[0]] + RemoveAll(s[1..], pat)
  }

  lemma {:induction false} RemoveAllAbsent(s: string, pat: string)
    requires pat != [] && !Contains(s, pat)
    ensures RemoveAll(s, pat) == s
    decreases |s|
  {
    if |s| >= |pat| {
      RemoveAllAbsent(s[1..], pat);
    }
  }

  /** The scan finds the first occurrence: when `pat` occurs nowhere in `x + pat + y`
      before the end of `x`, the text before it is kept, that occurrence is deleted and
      the scan resumes on `y`. */
  lemma {:induction false} RemoveAllFirstOccurrence(x: string, pat: string, y: string)
    requires pat != []
    requires forall i :: 0 <= i < |x| ==> !OccursAt(x + pat + y, pat, i)
    ensures RemoveAll(x + pat + y, pat) == x + RemoveAll(y, pat)
    decreases |x|
  {
    var s := x + pat + y;
    if x == [] {
      assert s == pat + y;
      RemoveAllLeading(pat, y);
    } else {
      var t := x[1..] + pat + y;
      assert s == [x[0]] + t;
      NoOccurrenceAfterHead(x[0], t, pat, |x| - 1);
      assert s[..|pat|] != pat by {
        assert !OccursAt(s, pat, 0);
        assert s[0..0 + |pat|] == s[..|pat|];
      }
      calc {
        RemoveAll(s, pat);
        { RemoveAllKeepsHead(s, pat); assert s[1..] == t; }
        [x[0]] + RemoveAll(t, pat);
        { RemoveAllFirstOccurrence(x[1..], pat, y); }
        [x[0]] + (x[1..] + RemoveAll(y, pat));
        { assert x == [x[0]] + x[1..]; }
        x + RemoveAll(y, pat);
      }
    }
  }

  /** Dropping the first character shifts every occurrence one place to the left. */
  lemma NoOccurrenceAfterHead(c: char, t: string, pat: string, n: nat)
    requires forall i :: 0 <= i < n + 1 ==> !OccursAt([c] + t, pat, i)
    ensures forall i :: 0 <= i < n ==> !OccursAt(t, pat, i)
  {
    forall i | 0 <= i < n
      ensures !OccursAt(t, pat, i)
    {
      assert !OccursAt([c] + t, pat, i + 1);
      assert i + |pat| <= |t| ==> ([c] + t)[i + 1..i + 1 + |pat|] == t[i..i + |pat|];
    }
  }

  /** A prefix that cannot start a match passes through untouched. */
  lemma {:induction false} RemoveAllSkipsPrefix(a: string, x: string, pat: string)
    requires pat != []
    requires forall k :: 0 <= k < |a| ==> a[k] != pat[0]
    ensures RemoveAll(a + x, pat) == a + RemoveAll(x, pat)
    decreases |a|
  {
    if a == [] {
      assert a + x == x;
    } else {
      var s := a + x;
      if |s| < |pat| {
        RemoveAllShort(x, pat);
      } else {
        assert s[..|pat|][0] == a[0];
        assert s[1..] == a[1..] + x;
        calc {
          RemoveAll(s, pat);
          [a[0]] + RemoveAll(a[1..] + x, pat);
          { RemoveAllSkipsPrefix(a[1..], x, pat); }
          [a[0]] + (a[1..] + RemoveAll(x, pat));
          { assert a == [a[0]] + a[1..]; }
          a + RemoveAll(x, pat);
        }
      }
    }
  }

  /** Text that does not start a match is kept, and the scan moves one character on. */
  lemma RemoveAllKeepsHead(s: string, pat: string)
    requires pat != [] && |pat| <= |s| && s[..|pat|] != pat
    ensures RemoveAll(s, pat) == [s[0]] + RemoveAll(s[1..], pat)
  {
  }

  lemma RemoveAllShort(x: string, pat: string)
    requires pat != [] && |x| < |pat|
    ensures RemoveAll(x, pat) == x
  {
  }

  lemma RemoveAllLeading(pat: string, x: string)
    requires pat != []
    ensures RemoveAll(pat + x, pat) == RemoveAll(x, pat)
  {
    assert (pat + x)[..|pat|] == pat;
    assert (pat + x)[|pat|..] == x;
  }

  lemma RemoveAllKeepsNoUpper(s: string, pat: string)
    requires pat != [] && NoUpper(s)
    ensures NoUpper(RemoveAll(s, pat))
  {
    var r := RemoveAll(s, pat);
    forall k | 0 <= k < |r|
      ensures !IsUpper(r[k])
    {
      assert r[k] in s;
    }
  }

  function DigitChar(d: nat): (c: char)
    requires d < 10
    ensures '0' <= c <= '9'
  {
    ('0' as int + d) as char
  }

  predicate AllDigits(s: string) {
    forall k :: 0 <= k < |s| ==> '0' <= s[k] <= '9'
  }

  /** `str(n)` for a non-negative int: its decimal digits, without leading zeros. */
  function NatToString(n: nat): (r: string)
    ensures r != [] && AllDigits(r)
    ensures |r| > 1 ==> r[0] != '0'
    decreases n
  {
    if n < 10 then [DigitChar(n)] else NatToString(n / 10) + [DigitChar(n % 10)]
  }

  /** Reads decimal digits back as a number. */
  function DigitsValue(s: string): nat
    requires AllDigits(s)
    decreases |s|
  {
    if s == [] then 0
    else DigitsValue(s[..|s| - 1]) * 10 + (s[|s| - 1] as int - '0' as int)
  }

  lemma {:induction false} NatToStringRoundTrip(n: nat)
    ensures DigitsValue(NatToString(n)) == n
    decreases n
  {
    var s := NatToString(n);
    if n >= 10 {
      NatToStringRoundTrip(n / 10);
      assert s[..|s| - 1] == NatToString(n / 10);
    }
  }

  lemma NatToStringInjective(a: nat, b: nat)
    requires NatToString(a) == NatToString(b)
    ensures a == b
  {
    NatToStringRoundTrip(a);
    NatToStringRoundTrip(b);
  }
}

=== FILE: wake_word.dfy ===
/**
 * The wake-word detector: a keyword-spotting engine built for the one configured
 * wake word, and a mono 16-bit input stream sized to the engine's frames. The
 * native engine and audio libraries are abstract: `Platform` says how each of their
 * constructors responds, a device read is a `ReadOutcome`, and the engine's
 * inference on a frame is a `ProcessOutcome`.
 */
module WakeWord {
  import opened Wrappers

  /** The configured wake word. */
  const WAKE_WORD := "bumblebee"

  type byte = x: int | 0 <= x < 256

  /** How the native libraries respond: the advertised keyword labels (None when
      listing them raises), the engine's sample rate and frame length (None when
      creating it raises), whether the audio library starts, and whether the
      input stream opens. */
  datatype Platform = Platform(
    advertised: Option<seq<string>>,
    engine: Option<EngineSpec>,
    audioStarts: bool,
    streamOpens: bool)

  datatype EngineSpec = EngineSpec(sampleRate: nat, frameLength: nat)

  /** A keyword-spotting engine and what it was built from. */
  datatype Engine = Engine(accessKey: string, keywords: seq<string>, sampleRate: nat, frameLength: nat)

  datatype SampleFormat = PaInt16

  datatype StreamConfig = StreamConfig(
    rate: nat, channels: nat, format: SampleFormat, isInput: bool, framesPerBuffer: nat)

  /** Native resources acquired and released, in the order it happens. */
  datatype Event =
    | EngineCreated(engine: Engine)
    | AudioStarted
    | StreamOpened(config: StreamConfig)
    | StreamClosed
    | AudioTerminated
    | EngineDeleted

  datatype InitError = InvalidWakeWord | EngineCreateFailed | AudioInitFailed | StreamOpenFailed

  datatype Session = Session(engine: Engine, stream: StreamConfig)

  /** What construction produced, and the resources it acquired on the way. */
  datatype Construction = Construction(outcome: Result<Session, InitError>, events: seq<Event>)

  /** `list_wake_words`: the advertised labels, or none when listing them fails. */
  function ListWakeWords(advertised: Option<seq<string>>): seq<string> {
    match advertised
    case Some(keywords) => keywords
    case None => []
  }

  /** The stream the detector opens for an engine. */
  function StreamFor(e: Engine): StreamConfig {
    StreamConfig(e.sampleRate, 1, PaInt16, true, e.frameLength)
  }

  /** Construction of the detector: the wake word must be advertised; then the engine
      is created for that word alone, the audio library started and the stream opened,
      each step only after the previous one succeeded. */
  function Construct(p: Platform, accessKey: string): (c: Construction)
    ensures c.outcome == Failure(InvalidWakeWord) <==> WAKE_WORD !in ListWakeWords(p.advertised)
    ensures c.outcome == Failure(InvalidWakeWord) ==> c.events == []
    ensures c.outcome == Failure(EngineCreateFailed) <==>
      WAKE_WORD in ListWakeWords(p.advertised) && p.engine.None?
    ensures c.outcome == Failure(EngineCreateFailed) ==> c.events == []
    ensures c.outcome == Failure(AudioInitFailed) <==>
      WAKE_WORD in ListWakeWords(p.advertised) && p.engine.Some? && !p.audioStarts
    ensures c.outcome == Failure(AudioInitFailed) ==>
      c.events == [EngineCreated(Engine(accessKey, [WAKE_WORD], p.engine.value.sampleRate, p.engine.value.frameLength))]
    ensures c.outcome.Success? <==>
      WAKE_WORD in ListWakeWords(p.advertised) && p.engine.Some? && p.audioStarts && p.streamOpens
    ensures c.outcome.Success? ==>
      && c.outcome.value.engine == Engine(accessKey, [WAKE_WORD], p.engine.value.sampleRate, p.engine.value.frameLength)
      && c.outcome.value.stream == StreamConfig(
           c.outcome.value.engine.sampleRate, 1, PaInt16, true, c.outcome.value.engine.frameLength)
  {
    if WAKE_WORD !in ListWakeWords(p.advertised) then
      Construction(Failure(InvalidWakeWord), [])
    else if p.engine.None? then
      Construction(Failure(EngineCreateFailed), [])
    else
      var e := Engine(accessKey, [WAKE_WORD], p.engine.value.sampleRate, p.engine.value.frameLength);
      if !p.audioStarts then
        Construction(Failure(AudioInitFailed), [EngineCreated(e)])
      else if !p.streamOpens then
        Construction(Failure(StreamOpenFailed), [EngineCreated(e), AudioStarted])
      else
        Construction(Success(Session(e, StreamFor(e))), [EngineCreated(e), AudioStarted, StreamOpened(StreamFor(e))])
  }

  /** A failed listing leaves no label to find, so construction is always rejected. */
  lemma FailedListingRejects(p: Platform, accessKey: string)
    requires p.advertised.None?
    ensures Construct(p, accessKey) == Construction(Failure(InvalidWakeWord), [])
  {
  }

  /** There is no rollback: when the stream does not open, the engine already created
      and the started audio library are never released. */
  lemma StreamFailureLeaksEngine(p: Platform, accessKey: string)
    requires WAKE_WORD in ListWakeWords(p.advertised) && p.engine.Some? && p.audioStarts && !p.streamOpens
    ensures var c := Construct(p, accessKey);
      && c.outcome == Failure(StreamOpenFailed)
      && EngineCreated(Engine(accessKey, [WAKE_WORD], p.engine.value.sampleRate, p.engine.value.frameLength)) in c.events
      && EngineDeleted !in c.events && AudioTerminated !in c.events
  {
  }

  /** The teardown `cleanup` performs. */
  const CLEANUP_EVENTS := [StreamClosed, AudioTerminated, EngineDeleted]

  /** After a successful construction, cleanup releases the three resources in the
      reverse of the order they were acquired: stream, audio library, engine. */
  lemma CleanupReversesConstruction(p: Platform, accessKey: string)
    requires Construct(p, accessKey).outcome.Success?
    ensures var c := Construct(p, accessKey);
      var s := c.outcome.value;
      c.events + CLEANUP_EVENTS == [EngineCreated(s.engine), AudioStarted, StreamOpened(s.stream),
                                     StreamClosed, AudioTerminated, EngineDeleted]
  {
  }

  /** A signed 16-bit sample from its low and high bytes. */
  function Int16(lo: byte, hi: byte): (v: int)
    ensures -32768 <= v < 32768
  {
    var u := lo + 256 * hi;
    if u >= 32768 then u - 65536 else u
  }

  predicate IsInt16(v: int) {
    -32768 <= v < 32768
  }

  /** `struct.unpack_from("h" * n, bytes)` on enough bytes: the first `2 * n` bytes
      read as `n` little-endian signed 16-bit samples. */
  function DecodeSamples(bytes: seq<byte>, n: nat): (samples: seq<int>)
    requires 2 * n <= |bytes|
    ensures |samples| == n
    ensures forall k :: 0 <= k < n ==> samples[k] == Int16(bytes[2 * k], bytes[2 * k + 1])
    decreases n
  {
    if n == 0 then []
    else [Int16(bytes[0], bytes[1])] + DecodeSamples(bytes[2..], n - 1)
  }

  datatype DecodeError = BufferTooShort

  /** `struct.unpack_from` raises when the buffer holds fewer than `2 * n` bytes and
      ignores any bytes after them. */
  function UnpackFrame(bytes: seq<byte>, n: nat): (r: Result<seq<int>, DecodeError>)
    ensures r.Success? <==> 2 * n <= |bytes|
    ensures r.Success? ==> |r.value| == n && forall k :: 0 <= k < n ==> IsInt16(r.value[k])
    ensures r.Success? ==> forall k :: 0 <= k < n ==> r.value[k] == Int16(bytes[2 * k], bytes[2 * k + 1])
  {
    if |bytes| < 2 * n then Failure(BufferTooShort) else Success(DecodeSamples(bytes, n))
  }

  /** The little-endian bytes of one signed 16-bit sample. */
  function SampleBytes(v: int): (b: seq<byte>)
    requires IsInt16(v)
    ensures |b| == 2 && Int16(b[0], b[1]) == v
  {
    var u := if v < 0 then v + 65536 else v;
    assert u % 256 + 256 * (u / 256) == u;
    [u % 256, u / 256]
  }

  /** The bytes a device delivers for the given samples. */
  function EncodeSamples(samples: seq<int>): (bytes: seq<byte>)
    requires forall k :: 0 <= k < |samples| ==> IsInt16(samples[k])
    ensures |bytes| == 2 * |samples|
  {
    if samples == [] then [] else SampleBytes(samples[0]) + EncodeSamples(samples[1..])
  }

  /** Decoding recovers exactly the samples that were encoded, whatever follows them. */
  lemma {:induction false} DecodeEncode(samples: seq<int>, rest: seq<byte>)
    requires forall k :: 0 <= k < |samples| ==> IsInt16(samples[k])
    ensures DecodeSamples(EncodeSamples(samples) + rest, |samples|) == samples
    decreases |samples|
  {
    if samples != [] {
      var head := SampleBytes(samples[0]);
      var tail := EncodeSamples(samples[1..]) + rest;
      var bytes := EncodeSamples(samples) + rest;
      assert bytes == head + tail;
      assert bytes[0] == head[0] && bytes[1] == head[1] && bytes[2..] == tail;
      DecodeEncode(samples[1..], rest);
      assert DecodeSamples(bytes, |samples|) == [samples[0]] + samples[1..];
    }
  }

  datatype ReadOutcome = Frame(bytes: seq<byte>) | ReadFault

  /** The engine's answer for one frame: the index of the keyword heard (negative for
      none), or a fault. */
  datatype ProcessOutcome = KeywordIndex(index: int) | ProcessFault

  /** One `listen` step: `read(n)` is the device's answer to a request for `n` frames
      and `process` the engine's inference. Only index 0, the one configured keyword,
      is a detection. */
  function Detect(frameLength: nat, read: nat -> ReadOutcome, process: seq<int> -> ProcessOutcome): bool {
    match read(frameLength)
    case ReadFault => false
    case Frame(bytes) =>
      match UnpackFrame(bytes, frameLength)
      case Failure(_) => false
      case Success(pcm) => process(pcm) == KeywordIndex(0)
  }

  /** A detection needs a full frame of the engine's length, decoded, and index 0 from
      the engine for it. */
  lemma DetectIffIndexZero(frameLength: nat, read: nat -> ReadOutcome, process: seq<int> -> ProcessOutcome)
    ensures Detect(frameLength, read, process) <==>
      && read(frameLength).Frame?
      && 2 * frameLength <= |read(frameLength).bytes|
      && process(DecodeSamples(read(frameLength).bytes, frameLength)) == KeywordIndex(0)
  {
  }

  /** The engine is handed exactly the samples the device captured, so a frame that
      carries `samples` is a detection iff the engine reports index 0 for them. */
  lemma DetectSeesCapturedSamples(samples: seq<int>, rest: seq<byte>,
                                  read: nat -> ReadOutcome, process: seq<int> -> ProcessOutcome)
    requires forall k :: 0 <= k < |samples| ==> IsInt16(samples[k])
    requires read(|samples|) == Frame(EncodeSamples(samples) + rest)
    ensures Detect(|samples|, read, process) <==> process(samples) == KeywordIndex(0)
  {
    DecodeEncode(samples, rest);
  }

  /** Faults and every index other than 0 (the no-match index included) are no detection. */
  lemma FaultsAreNoDetection(frameLength: nat, read: nat -> ReadOutcome, process: seq<int> -> ProcessOutcome)
    requires || read(frameLength).ReadFault?
             || (read(frameLength).Frame? && |read(frameLength).bytes| < 2 * frameLength)
             || (read(frameLength).Frame? && 2 * frameLength <= |read(frameLength).bytes|
                 && process(DecodeSamples(read(frameLength).bytes, frameLength)) != KeywordIndex(0))
    ensures !Detect(frameLength, read, process)
  {
  }

  class WakeWordDetector {
    var porcupine: Engine
    var audioStream: StreamConfig
    /** The native resources this detector acquired and released so far. */
    var events: seq<Event>

    constructor FromSession(s: Session, events: seq<Event>)
      ensures porcupine == s.engine && audioStream == s.stream && this.events == events
    {
      porcupine := s.engine;
      audioStream := s.stream;
      this.events := events;
    }

    /** Construction step by step; a failure raises, so no detector exists, and what was
        acquired before it is reported in `events`. */
    static method Create(p: Platform, accessKey: string) returns (r: Result<WakeWordDetector, InitError>, events: seq<Event>)
      ensures var c := Construct(p, accessKey);
        && events == c.events
        && (c.outcome.Failure? ==> r == Failure(c.outcome.error))
        && (c.outcome.Success? ==>
              && r.Success? && fresh(r.value)
              && r.value.porcupine == c.outcome.value.engine
              && r.value.audioStream == c.outcome.value.stream
              && r.value.events == events)
    {
      events := [];
      var available := ListWakeWords(p.advertised);
      if WAKE_WORD !in available {
        return Failure(InvalidWakeWord), events;
      }
      if p.engine.None? {
        return Failure(EngineCreateFailed), events;
      }
      var engine := Engine(accessKey, [WAKE_WORD], p.engine.value.sampleRate, p.engine.value.frameLength);
      events := events + [EngineCreated(engine)];
      if !p.audioStarts {
        return Failure(AudioInitFailed), events;
      }
      events := events + [AudioStarted];
      if !p.streamOpens {
        return Failure(StreamOpenFailed), events;
      }
      var stream := StreamConfig(engine.sampleRate, 1, PaInt16, true, engine.frameLength);
      events := events + [StreamOpened(stream)];
      var d := new WakeWordDetector.FromSession(Session(engine, stream), events);
      r := Success(d);
    }

    /** Reads one frame of the engine's length, decodes it and asks the engine; every
        fault is caught and reported as no detection. Nothing is changed. */
    method Listen(read: nat -> ReadOutcome, process: seq<int> -> ProcessOutcome) returns (detected: bool)
      ensures detected == Detect(porcupine.frameLength, read, process)
    {
      var pcm := read(porcupine.frameLength);
      if pcm.ReadFault? {
        return false;
      }
      var samples := UnpackFrame(pcm.bytes, porcupine.frameLength);
      if samples.Failure? {
        return false;
      }
      var keywordIndex := process(samples.value);
      detected := keywordIndex == KeywordIndex(0);
    }

    /** Closes the stream, then terminates the audio library, then deletes the engine. */
    method Cleanup()
      modifies this
      ensures porcupine == old(porcupine) && audioStream == old(audioStream)
      ensures events == old(events) + CLEANUP_EVENTS
    {
      events := events + [StreamClosed];
      events := events + [AudioTerminated];
      events := events + [EngineDeleted];
    }
  }
}

=== FILE: wrappers.dfy ===
/** Optional values and results that carry an error, shared by every module of the model. */
module Wrappers {

  datatype Option<+T> = None | Some(value: T)

  /** A value, or the error the source raises instead of returning one. Usable with `:-`. */
  datatype Result<+T, +E> = Success(value: T) | Failure(error: E) {

    predicate IsFailure() {
      Failure?
    }

    function PropagateFailure<U>(): Result<U, E>
      requires Failure?
    {
      Failure(error)
    }

    function Extract(): T
      requires Success?
    {
      value
    }
  }
}
